=== FILE: README.md ===
# CrptApi admission gate, router and document projection

A Dafny model of the request handler of `CrptApi`, a one-endpoint HTTP service that accepts a
document submission. The model covers the three pieces of sequential logic in `src/CrptApi.java`:

- **The admission gate** (`RateGate`). At construction the spacing interval `timeRate` is the
  number of nanoseconds in one `TimeUnit` divided, with Java's truncating `long / int`
  division, by `requestLimit`; a zero limit throws `ArithmeticException`. `lastRequestTime` is
  the clock reading taken when the object is built. A request is admitted only when strictly
  more than `timeRate` nanoseconds have elapsed since `lastRequestTime`; admission stores a
  fresh clock reading, denial changes nothing and prints two log lines.
- **The route decision** (`Router`). `Pattern.matches` is modelled as a whole-input matcher for
  patterns made of `^` anchors and plain characters, which is what the create pattern is. A `POST` to exactly `/api/v3/lk/documents/create` is the
  create route (200); a `POST` anywhere else is 400 with `"Bad request"` and
  `"Invalid path: " + path`; any other verb is 405 with `"Method Not Allowed"` and
  `"Method Not Allowed: " + verb`.
- **The document projection** (`Documents`). `fullJsonToDocument` copies twelve fields of the
  request body and drops `description`.

`Handler` composes them the way `handleRequests` does: gate first, then routing, then the body.
Time is integer nanoseconds passed in as parameters. A call reads the wall clock twice, once
for the comparison (line 45) and once for the stored stamp (line 55), so each call carries a
`Reading(check, stamp)`. The spacing invariant needs only `check <= stamp` inside each call.
It holds even when the clock jumps backward between calls. Because the handler is
`synchronized`, successive calls are modelled as sequential composition (`Run`, `HandleAll`).

Modules: `Wrappers` (Option, Result), `Text` (`Integer.toString` and ASCII `toLowerCase`, used
by the denial log line), `TimeUnits`, `RateGate`, `Documents`, `Router`, `Handler`.

### Behaviour of `CrptApi` worth knowing

- Admission needs elapsed time strictly greater than the interval. Elapsed time exactly equal
  to `timeRate` is denied.
- The first request is measured against the construction time. With a non-negative interval a
  request at the construction instant is denied (`OnePerSecondScenario`).
- A denied request gets no response: nothing is written to the exchange. The two log lines
  are the only effect.
- Only `requestLimit == 0` fails construction. A negative limit gives an interval of zero or
  less (`TimeRate`): zero when the limit's magnitude exceeds the unit's nanoseconds, because the
  division truncates toward zero. Only a negative interval admits backward or same-instant
  readings (`NegativeLimitScenario`).
- A failure to read or decode the body is caught and printed, and no response is written.
  The same happens to the `NullPointerException` thrown when `description` is missing
  (`Respond`).

## Model

| member | source | states |
|---|---|---|
| RateGate.JavaDiv | src/CrptApi.java:41 | the quotient is truncated toward zero: its magnitude is the largest one whose multiple of the divisor's magnitude does not exceed the dividend's, and its sign is the sign of the product |
| RateGate.TimeRate | src/CrptApi.java:40-42 | construction fails exactly when the limit is 0; otherwise the interval is the truncated quotient of the unit's nanoseconds by the limit, positive only for a positive limit |
| RateGate.Create | src/CrptApi.java:22-38 | a gate exists exactly when the limit is non-zero; it stores the construction-time clock reading as the last admission, and the interval computed by `TimeRate` |
| RateGate.Step | src/CrptApi.java:44-55 | admitted iff the interval is strictly less than the elapsed time; admission stores the second clock reading; denial leaves the gate unchanged; with a non-negative interval a clock at or before the last admission is denied |
| RateGate.RunShape | src/CrptApi.java:53-55 | over any call sequence the configuration never changes, one stamp is stored per admission, and the final `lastRequestTime` is the latest admitted stamp or the construction time |
| RateGate.RunStampsAdmitted | src/CrptApi.java:53-55 | every recorded stamp is the second clock reading of some call that was admitted |
| RateGate.AdmittedRecorded | src/CrptApi.java:53-55 | the second clock reading of every admitted call is among the recorded stamps |
| RateGate.RunSpaced | src/CrptApi.java:22-55 | spacing invariant: the construction time followed by the admitted stamps are pairwise consecutive more than the interval apart, whenever each call reads its two clock values in order |
| RateGate.SpacedSpan | src/CrptApi.java:44-55 | n+1 timestamps spaced by more than an interval, of any sign, span at least n times (interval + 1) nanoseconds |
| RateGate.AdmissionBound | src/CrptApi.java:40-55 | whatever the interval's sign, k admissions after construction end at least k times (interval + 1) nanoseconds after the construction time, when each call reads its clock values in order |
| RateGate.SimultaneousAtMostOne | src/CrptApi.java:53-55 | with a non-negative interval, calls that all read the same instant admit at most one request, and exactly one iff the first of them is admitted |
| RateGate.NegativeLimitScenario | src/CrptApi.java:40-55 | a limit of -2 per nanosecond gives a zero interval that still denies a same-instant reading; a limit of -1 per day gives a negative interval that admits two calls at the construction instant |
| RateGate.AllDeniedAfter | src/CrptApi.java:53-55 | with a non-negative interval, once the last admission is at or after the instant every call reads, every call is denied and the gate is unchanged |
| RateGate.DeniedRunKeepsGate | src/CrptApi.java:106-109 | a sequence of denied calls leaves the gate unchanged, stores no stamp and yields only denials; afterwards any reading more than the interval after the last admission is admitted |
| RateGate.Run | src/CrptApi.java:53-55 | successive serialised calls give one decision per call and at most one stamp per call, keep the configuration, leave the gate as it was when nothing is admitted, and otherwise end with `last` at the latest stamp |
| RateGate.PositiveLimitRate | src/CrptApi.java:37-42 | a positive limit always constructs, with a non-negative interval that is the truncated quotient of the unit's nanoseconds |
| RateGate.OnePerSecondScenario | src/CrptApi.java:22-55 | one request per second built at time 0: requests at 0, 0.5 s and exactly 1 s are denied, 1 s + 1 ns is admitted, and 1.5 s is denied again |
| TimeUnits.NanosPer | src/CrptApi.java:41 | one unit is between 1 nanosecond and the largest `long`, so the conversion never saturates |
| TimeUnits.Name | src/CrptApi.java:108 | the enum name printed by `toString()` is upper-case letters only |
| TimeUnits.LowerName | src/CrptApi.java:108 | the lower-cased name has the length of the enum name and holds no upper-case letter |
| TimeUnits.LowerNameInjective | src/CrptApi.java:108 | distinct time units print distinct lower-case names |
| Text.IntToString | src/CrptApi.java:108 | the limit is printed as an optional minus sign, present exactly for negative values, followed by decimal digits |
| Text.NatToStringRoundTrip | src/CrptApi.java:108 | the decimal digits printed for a natural number read back as that number |
| Text.IntToStringRoundTrip | src/CrptApi.java:108 | the numeral printed for a signed limit, minus sign included, reads back as that limit |
| Text.IntToStringInjective | src/CrptApi.java:108 | two limits print the same numeral exactly when they are equal |
| Text.Lower | src/CrptApi.java:108 | lower-casing keeps the length, leaves no upper-case letter, keeps every other character and shifts each upper-case letter to its lower-case form |
| Text.LowerInjectiveOnUpper | src/CrptApi.java:108 | on upper-case enum names lower-casing loses no information |
| Documents.ToDocument | src/CrptApi.java:126-141 | the projected document together with the body's own description gives back the request body, so only `description` is dropped |
| Documents.ProjectionOnto | src/CrptApi.java:126-141 | every document is the projection of a request body, with any description |
| Documents.ProjectionKernel | src/CrptApi.java:126-141 | two request bodies project to the same document iff they differ at most in `description` |
| Documents.ProjectionKeepsFields | src/CrptApi.java:126-141 | each of the twelve kept fields is copied unchanged, and the products are copied in order |
| Router.MatchFrom | src/CrptApi.java:67 | a match from a position consumes at most one input character per pattern character, and a `^` matches only at the start of the input |
| Router.Matches | src/CrptApi.java:67 | without anchors a pattern matches exactly the input equal to it; with one leading `^` and no other, exactly the input equal to the rest of the pattern |
| Router.LiteralMatchFrom | src/CrptApi.java:67 | a pattern of characters that stand for themselves matches from a position exactly when it is the rest of the input, since `Pattern.matches` must consume the whole input |
| Router.CreatePathMatches | src/CrptApi.java:67 | the anchored create pattern has no other metacharacter, and a path matches it exactly when the path equals `/api/v3/lk/documents/create` |
| Router.RouteOf | src/CrptApi.java:62-101 | the create route is chosen exactly for the verb POST with a path equal to the create path |
| Router.RouteCases | src/CrptApi.java:62-101 | the route is the create route iff the verb is POST and the path equals the create path, a bad path iff POST elsewhere, a bad method iff not POST; status is 200 exactly for the create route and always one of 200, 400, 405 |
| Router.NoPartialMatch | src/CrptApi.java:67 | the path match covers the whole string: extensions and proper prefixes of the create path are bad paths |
| Router.Status | src/CrptApi.java:77-100 | the create route alone answers 200, the bad path alone answers 400, and every status is 200, 400 or 405 |
| Router.ErrorBody | src/CrptApi.java:80-99 | the error body carries its route's status, never 200, echoes the path and the clock reading, and its message ends with the path (400) or the verb (405) |
| Router.ErrorBodyContents | src/CrptApi.java:79-100 | the error body carries the route's status, the fixed error text, a message naming the path (400) or the verb (405), and echoes the path |
| Handler.Respond | src/CrptApi.java:60-104 | after admission a response is written with the route's status; the create route answers 200 with the projected document, or nothing when decoding failed or `description` is missing; other routes answer with their error body |
| Handler.Handle | src/CrptApi.java:53-110 | the gate moves exactly as one `Step`, before routing and whatever the outcome; a call is dropped with the two log lines iff the gate denies it; otherwise its outcome is `Respond`'s |
| Handler.SessionFollowsGate | src/CrptApi.java:53-110 | over a sequence of requests the handler's final gate is the gate run's final gate on the same clock readings, and the calls it drops are exactly the calls the gate denies |
| Handler.RequestsDoNotAffectAdmission | src/CrptApi.java:53-110 | two request sequences over the same clock readings drop the same calls and end in the same gate, whatever the requests contain |
| Handler.SessionSpaced | src/CrptApi.java:53-55 | through the handler, when each call reads its clock values in order, admitted stamps after the construction time are spaced by more than the interval and `lastRequestTime` ends at the latest of them |
| Handler.DenialLogReadsLimit | src/CrptApi.java:106-109 | from the second denial line alone, the text after the prefix up to the first space is the limit's numeral and parses back to the limit, and the rest is " requests per " followed by the unit's lower-case name |
| Handler.DenialLogInjective | src/CrptApi.java:106-109 | two gates print the same denial lines exactly when they share limit and unit |
| Handler.BadPathScenario | src/CrptApi.java:79-90 | on an open gate, POST /unknown gets 400 with "Bad request" and a message naming the path, and uses up the slot |
| Handler.BadMethodScenario | src/CrptApi.java:92-100 | on an open gate, GET on the create path gets 405 with a message naming the verb, and uses up the slot |
| Handler.DenialLog | src/CrptApi.java:107-108 | a denial prints two lines: the fixed "Request limit exceeded" line, and a line that starts with the limit prefix and ends with the unit's lower-case name |
| Handler.HandleAll | src/CrptApi.java:53 | successive serialised calls give one outcome per request and never change the gate's unit, limit or interval |

## Left out

- HTTP server setup, `sendText` (headers and byte writing) and closing the exchange are I/O.
  An `IOException` while writing is caught like any other exception. Such a partly written
  response is not modelled.
- The denial branch sits outside the `try (exchange)` block, so a denied exchange is never
  closed. This is a resource effect and is not modelled.
- Jackson decoding and encoding are library behaviour. This covers the `@JsonProperty` names,
  the `yyyy-MM-dd` date format and `findAndRegisterModules`. A request's body is given as its
  decoding outcome (`Option<FullJson>`). Encoding the document or error body is assumed to
  succeed.
- `LocalDateTime.now()` is replaced by integer-nanosecond clock parameters. `LocalDate` becomes
  a `Date(year, month, day)` record. The error body's timestamp is a third clock reading.
- `Duration.toNanos()` throws `ArithmeticException` when the elapsed time exceeds about 292
  years. That overflow is not modelled.
- The `double` type of `timeRate` and of the elapsed time is modelled as integers. The interval
  is at most 86 400 × 10^9 < 2^53, so it is exact as a double. Rounding the elapsed time is
  monotone. So the double comparison agrees with the integer one.
- Java `null` is modelled only for `description`, where it changes behaviour. Other reference
  fields are copied unchanged by the projection, whatever their value.
- The `System.out` output of `createDocument` and the printed stack traces are observability
  only. The denial log lines are modelled because they are the whole effect of a denial.
- Text.Lower: models `toLowerCase()` only for ASCII input, and for a default locale that is not
  Turkish or Azerbaijani. Non-ASCII capitals such as `É` are left unchanged, where Java lower-cases
  them; the only text lowered here is a `TimeUnit` name, which is ASCII.
  Under those locales `I` lower-cases to the dotless `ı`, so the source prints, say, "mınutes",
  which this model does not produce. The JVM's locale is an environment setting outside the
  model.
- TimeUnits.LowerName: inherits the same locale assumption from `Text.Lower`.
- `synchronized` and thread scheduling are not modelled. The handler is fully serialised, so
  successive calls are sequential composition.

=== FILE: documents.dfy ===
/** The records of `CrptApi`: the submitted `FullJson`, the stored `Document` and their parts,
    and the projection from one to the other. Field names are the Java record components;
    the JSON names and the `yyyy-MM-dd` date format belong to the JSON mapper. */
module Documents {
  import opened Wrappers

  /** A `LocalDate`, kept as its three components. */
  datatype Date = Date(year: int, month: int, day: int)

  datatype DocumentType = LpIntroduceGoods

  datatype Description = Description(participantInn: string)

  datatype Product = Product(
    certificateDocument: string,
    certificateDocumentDate: Date,
    certificateDocumentNumber: string,
    ownerInn: string,
    producerInn: string,
    productionDate: Date,
    tnvedCode: string,
    uitCode: string,
    uituCode: string)

  /** The request body. A missing `description` decodes to Java `null`, here `None`. */
  datatype FullJson = FullJson(
    docId: string,
    docStatus: string,
    importRequest: bool,
    ownerInn: string,
    participantInn: string,
    producerInn: string,
    productionDate: Date,
    productionType: string,
    regDate: Date,
    regNumber: string,
    docType: DocumentType,
    description: Option<Description>,
    products: seq<Product>)

  /** The document echoed back: the request body without `description`. */
  datatype Document = Document(
    docId: string,
    docStatus: string,
    importRequest: bool,
    ownerInn: string,
    participantInn: string,
    producerInn: string,
    productionDate: Date,
    productionType: string,
    regDate: Date,
    regNumber: string,
    docType: DocumentType,
    products: seq<Product>)

  /** `fullJsonToDocument`: every field but `description`, unchanged. */
  function ToDocument(f: FullJson): (d: Document)
    ensures WithDescription(d, f.description) == f
  {
    Document(f.docId, f.docStatus, f.importRequest, f.ownerInn, f.participantInn, f.producerInn,
             f.productionDate, f.productionType, f.regDate, f.regNumber, f.docType, f.products)
  }

  /** The inverse direction: a document plus a description is a request body. */
  function WithDescription(d: Document, desc: Option<Description>): (f: FullJson)
  {
    FullJson(d.docId, d.docStatus, d.importRequest, d.ownerInn, d.participantInn, d.producerInn,
             d.productionDate, d.productionType, d.regDate, d.regNumber, d.docType, desc, d.products)
  }

  /** Every document is the projection of a body carrying it, whatever the description. */
  lemma ProjectionOnto(d: Document, desc: Option<Description>)
    ensures ToDocument(WithDescription(d, desc)) == d
    ensures WithDescription(d, desc).description == desc
  {
  }

  /** Two bodies project to the same document exactly when they differ at most in `description`. */
  lemma ProjectionKernel(a: FullJson, b: FullJson)
    ensures ToDocument(a) == ToDocument(b) <==> a.(description := b.description) == b
  {
    if ToDocument(a) == ToDocument(b) {
      assert WithDescription(ToDocument(a), a.description) == a;
      assert WithDescription(ToDocument(b), b.description) == b;
    }
  }

  /** Field by field: each of the twelve kept fields, and each product in order, is copied. */
  lemma ProjectionKeepsFields(f: FullJson)
    ensures var d := ToDocument(f);
      && d.docId == f.docId && d.docStatus == f.docStatus && d.importRequest == f.importRequest
      && d.ownerInn == f.ownerInn && d.participantInn == f.participantInn
      && d.producerInn == f.producerInn && d.productionDate == f.productionDate
      && d.productionType == f.productionType && d.regDate == f.regDate
      && d.regNumber == f.regNumber && d.docType == f.docType
      && |d.products| == |f.products|
      && forall i :: 0 <= i < |f.products| ==> d.products[i] == f.products[i]
  {
  }
}

=== FILE: handler.dfy ===
/** `handleRequests`: the gate decides first; an admitted request is then routed, its body
    projected and answered. The HTTP exchange is reduced to the request's verb, path and the
    outcome of decoding its body, and the response to a status and a payload. */
module Handler {
  import opened Wrappers
  import opened TimeUnits
  import Text
  import opened RateGate
  import opened Documents
  import opened Router

  /** `body` is what the JSON mapper made of the request body: `None` when reading or
      decoding it threw, or when it decoded to `null` (the JSON literal `null`), in which case
      the first field access of the projection throws instead. */
  datatype Request = Request(verb: string, path: string, body: Option<FullJson>)

  /** The clock readings of one call: the gate's two readings and the one stamped into an
      error body. */
  datatype Clock = Clock(reading: Reading, reply: int)

  datatype Payload = DocumentPayload(doc: Document) | ErrorPayload(err: ErrorMessage)

  /** What one call does to the outside world. `Dropped`: denied by the gate, the two log lines
      are printed and nothing is written to the exchange. `Swallowed`: an exception was caught
      and printed, the exchange is closed without a response. */
  datatype Outcome =
    | Dropped(log: seq<string>)
    | Responded(status: int, payload: Payload)
    | Swallowed

  const DenialPrefix: string := "Log.INFO: The limit set is: "
  const DenialMiddle: string := " requests per "

  /** The two lines printed when the gate denies a request. */
  function DenialLog(g: Gate): (log: seq<string>)
    ensures |log| == 2 && log[0] == "Log.INFO: Request limit exceeded"
    ensures |DenialPrefix| <= |log[1]| && log[1][..|DenialPrefix|] == DenialPrefix
    ensures |LowerName(g.unit)| <= |log[1]| && log[1][|log[1]| - |LowerName(g.unit)|..] == LowerName(g.unit)
  {
    ["Log.INFO: Request limit exceeded",
     DenialPrefix + Text.IntToString(g.limit) + DenialMiddle + LowerName(g.unit)]
  }

  /** The body of the `try` block, run once the gate has admitted the request. The create route
      needs a decoded body with a description: `fullJson.description().participantInn()` throws
      on a missing description before any response is written. */
  function Respond(req: Request, now: int): (o: Outcome)
    ensures !o.Dropped?
    ensures o.Responded? ==> o.status == Status(RouteOf(req.verb, req.path))
    ensures o.Swallowed? <==>
      RouteOf(req.verb, req.path) == CreateDocument && (req.body.None? || req.body.value.description.None?)
    ensures o.Responded? && o.status == 200 ==>
      req.body.Some? && o.payload == DocumentPayload(ToDocument(req.body.value))
    ensures o.Responded? && o.status != 200 ==>
      o.payload == ErrorPayload(ErrorBody(RouteOf(req.verb, req.path), req.verb, req.path, now))
  {
    var r := RouteOf(req.verb, req.path);
    if r != CreateDocument then
      Responded(Status(r), ErrorPayload(ErrorBody(r, req.verb, req.path, now)))
    else
      match req.body
      case None => Swallowed
      case Some(f) =>
        if f.description.None? then Swallowed else Responded(200, DocumentPayload(ToDocument(f)))
  }

  datatype HandleResult = HandleResult(outcome: Outcome, gate: Gate)

  /** One call of the handler: the admission slot is consumed before the request is looked at,
      so a request that ends in 400, 405 or a swallowed exception still moves `last`. */
  function Handle(g: Gate, req: Request, clock: Clock): (h: HandleResult)
    ensures h.gate == Step(g, clock.reading).gate
    ensures h.outcome.Dropped? <==> !Admits(g, clock.reading.check)
    ensures h.outcome.Dropped? ==> h.outcome.log == DenialLog(g)
    ensures !h.outcome.Dropped? ==> h.outcome == Respond(req, clock.reply)
  {
    var s := Step(g, clock.reading);
    match s.decision
    case Denied => HandleResult(Dropped(DenialLog(g)), s.gate)
    case Admitted => HandleResult(Respond(req, clock.reply), s.gate)
  }

  /** Successive calls, serialised by the `synchronized` handler. */
  datatype Session = Session(final: Gate, outcomes: seq<Outcome>)

  function HandleAll(g: Gate, reqs: seq<Request>, clocks: seq<Clock>): (s: Session)
    requires |reqs| == |clocks|
    ensures |s.outcomes| == |reqs|
    ensures s.final.unit == g.unit && s.final.limit == g.limit && s.final.rate == g.rate
    decreases |reqs|
  {
    if reqs == [] then Session(g, [])
    else
      var h := Handle(g, reqs[0], clocks[0]);
      var rest := HandleAll(h.gate, reqs[1..], clocks[1..]);
      Session(rest.final, [h.outcome] + rest.outcomes)
  }

  function Readings(clocks: seq<Clock>): (rs: seq<Reading>)
    ensures |rs| == |clocks|
    ensures forall i :: 0 <= i < |clocks| ==> rs[i] == clocks[i].reading
  {
    seq(|clocks|, i requires 0 <= i < |clocks| => clocks[i].reading)
  }

  /** Which calls of a session were dropped by the gate. */
  function DropMask(os: seq<Outcome>): (m: seq<bool>)
    ensures |m| == |os|
    ensures forall i :: 0 <= i < |os| ==> (m[i] <==> os[i].Dropped?)
    decreases |os|
  {
    if os == [] then [] else [os[0].Dropped?] + DropMask(os[1..])
  }

  /** Which calls of a gate run were denied. */
  function DenyMask(ds: seq<Decision>): (m: seq<bool>)
    ensures |m| == |ds|
    ensures forall i :: 0 <= i < |ds| ==> (m[i] <==> ds[i] == Denied)
    decreases |ds|
  {
    if ds == [] then [] else [ds[0] == Denied] + DenyMask(ds[1..])
  }

  /** The gate sees only the clock: the handler's final gate and the calls it drops are the
      gate's own run over the same readings, whatever the requests were. */
  lemma {:induction false} SessionFollowsGate(g: Gate, reqs: seq<Request>, clocks: seq<Clock>)
    requires |reqs| == |clocks|
    ensures HandleAll(g, reqs, clocks).final == Run(g, Readings(clocks)).final
    ensures DropMask(HandleAll(g, reqs, clocks).outcomes) == DenyMask(Run(g, Readings(clocks)).decisions)
    decreases |reqs|
  {
    if reqs != [] {
      var h := Handle(g, reqs[0], clocks[0]);
      var step := Step(g, clocks[0].reading);
      var rs := Readings(clocks);
      assert rs[0] == clocks[0].reading;
      assert rs[1..] == Readings(clocks[1..]);
      SessionFollowsGate(h.gate, reqs[1..], clocks[1..]);
      var s, s' := HandleAll(g, reqs, clocks), HandleAll(h.gate, reqs[1..], clocks[1..]);
      var t, t' := Run(g, rs), Run(step.gate, rs[1..]);
      assert s.outcomes[1..] == s'.outcomes;
      assert t.decisions[1..] == t'.decisions;
      assert DropMask(s.outcomes) == [h.outcome.Dropped?] + DropMask(s'.outcomes);
      assert DenyMask(t.decisions) == [step.decision == Denied] + DenyMask(t'.decisions);
    }
  }

  /** One request's content never affects another's admission: two sessions over the same
      clock readings drop the same calls and end in the same gate. */
  lemma RequestsDoNotAffectAdmission(g: Gate, a: seq<Request>, b: seq<Request>, clocks: seq<Clock>)
    requires |a| == |clocks| && |b| == |clocks|
    ensures HandleAll(g, a, clocks).final == HandleAll(g, b, clocks).final
    ensures DropMask(HandleAll(g, a, clocks).outcomes) == DropMask(HandleAll(g, b, clocks).outcomes)
  {
    SessionFollowsGate(g, a, clocks);
    SessionFollowsGate(g, b, clocks);
  }

  /** The spacing invariant seen through the handler: when each call reads its clock values in
      order, the stamps of the admitted calls, after the construction time, are strictly more
      than `rate` apart, and `last` ends at the latest. */
  lemma SessionSpaced(g: Gate, reqs: seq<Request>, clocks: seq<Clock>)
    requires |reqs| == |clocks|
    requires forall i :: 0 <= i < |clocks| ==> InOrder(clocks[i].reading)
    ensures var stamps := [g.last] + Run(g, Readings(clocks)).stamps;
      Spaced(stamps, g.rate) && HandleAll(g, reqs, clocks).final.last == stamps[|stamps| - 1]
  {
    SessionFollowsGate(g, reqs, clocks);
    RunSpaced(g, Readings(clocks));
    RunShape(g, Readings(clocks));
  }

  /** The position of the first space in `s`, or `|s|` when there is none. */
  function FirstSpace(s: string): (k: nat)
    ensures k <= |s|
    decreases |s|
  {
    if s == [] || s[0] == ' ' then 0 else 1 + FirstSpace(s[1..])
  }

  /** A text without spaces followed by one that starts with a space: the first space is the
      join. */
  lemma {:induction false} FirstSpaceAtJoin(a: string, b: string)
    requires forall i :: 0 <= i < |a| ==> a[i] != ' '
    requires |b| > 0 && b[0] == ' '
    ensures FirstSpace(a + b) == |a|
    decreases |a|
  {
    if a != [] {
      assert (a + b)[1..] == a[1..] + b;
      FirstSpaceAtJoin(a[1..], b);
    }
  }

  /** Such a join splits uniquely. */
  lemma SplitAtSpace(a: string, b: string, c: string, d: string)
    requires forall i :: 0 <= i < |a| ==> a[i] != ' '
    requires forall i :: 0 <= i < |c| ==> c[i] != ' '
    requires |b| > 0 && b[0] == ' ' && |d| > 0 && d[0] == ' '
    requires a + b == c + d
    ensures a == c && b == d
  {
    FirstSpaceAtJoin(a, b);
    FirstSpaceAtJoin(c, d);
    assert a == (a + b)[..|a|] && c == (c + d)[..|c|];
    assert b == (a + b)[|a|..] && d == (c + d)[|c|..];
  }

  /** The limit reads back from the second denial line alone: after the fixed prefix, the text
      up to the first space is the numeral of the limit. */
  lemma DenialLogReadsLimit(g: Gate)
    ensures |DenialPrefix| <= |DenialLog(g)[1]|
    ensures var rest := DenialLog(g)[1][|DenialPrefix|..];
      && rest[..FirstSpace(rest)] == Text.IntToString(g.limit)
      && Text.ParseInt(rest[..FirstSpace(rest)]) == g.limit
      && rest[FirstSpace(rest)..] == DenialMiddle + LowerName(g.unit)
  {
    var x := Text.IntToString(g.limit);
    var tail := DenialMiddle + LowerName(g.unit);
    MiddleSlice(DenialPrefix, x, DenialMiddle, LowerName(g.unit));
    NumeralHasNoSpace(g.limit);
    FirstSpaceAtJoin(x, tail);
    assert (x + tail)[..|x|] == x;
    assert (x + tail)[|x|..] == tail;
    Text.IntToStringRoundTrip(g.limit);
  }

  /** The numeral sits between the fixed prefix and the rest of the line. */
  lemma MiddleSlice(p: string, x: string, m: string, u: string)
    ensures (p + x + m + u)[|p|..|p| + |x|] == x
    ensures (p + x + m + u)[|p|..] == x + (m + u)
  {
    assert p + x + m + u == p + (x + (m + u));
  }

  lemma NumeralHasNoSpace(i: int)
    ensures forall k :: 0 <= k < |Text.IntToString(i)| ==> Text.IntToString(i)[k] != ' '
  {
    var x := Text.IntToString(i);
    forall k | 0 <= k < |x|
      ensures x[k] != ' '
    {
      if x[0] == '-' && k > 0 {
        assert x[k] == x[1..][k - 1];
      }
    }
  }

  /** Two gates print the same denial lines exactly when they share limit and unit. */
  lemma DenialLogInjective(g: Gate, g': Gate)
    ensures DenialLog(g) == DenialLog(g') <==> g.limit == g'.limit && g.unit == g'.unit
  {
    if DenialLog(g) == DenialLog(g') {
      var x, y := Text.IntToString(g.limit), Text.IntToString(g'.limit);
      var b, d := DenialMiddle + LowerName(g.unit), DenialMiddle + LowerName(g'.unit);
      MiddleSlice(DenialPrefix, x, DenialMiddle, LowerName(g.unit));
      MiddleSlice(DenialPrefix, y, DenialMiddle, LowerName(g'.unit));
      assert x + b == y + d;
      NumeralHasNoSpace(g.limit);
      NumeralHasNoSpace(g'.limit);
      SplitAtSpace(x, b, y, d);
      Text.IntToStringInjective(g.limit, g'.limit);
      assert LowerName(g.unit) == b[|DenialMiddle|..];
      assert LowerName(g'.unit) == d[|DenialMiddle|..];
      LowerNameInjective(g.unit, g'.unit);
    }
  }

  /** On an open gate a POST to another path gets 400 naming that path, and uses up the slot. */
  lemma BadPathScenario(g: Gate, clock: Clock)
    requires Admits(g, clock.reading.check)
    ensures var h := Handle(g, Request("POST", "/unknown", None), clock);
      && h.outcome == Responded(400, ErrorPayload(ErrorMessage(clock.reply, 400, "Bad request",
                                                               "Invalid path: /unknown", "/unknown")))
      && h.gate.last == clock.reading.stamp
  {
    var req := Request("POST", "/unknown", None);
    assert "/unknown" != CreatePath by { assert |"/unknown"| != |CreatePath|; }
    assert RouteOf(req.verb, req.path) == BadPath;
    assert "Invalid path: " + "/unknown" == "Invalid path: /unknown";
    assert ErrorBody(BadPath, req.verb, req.path, clock.reply)
        == ErrorMessage(clock.reply, 400, "Bad request", "Invalid path: /unknown", "/unknown");
    assert Respond(req, clock.reply) == Responded(400, ErrorPayload(ErrorBody(BadPath, req.verb, req.path, clock.reply)));
  }

  /** On an open gate a GET to the create path gets 405 naming the verb, and uses up the slot. */
  lemma BadMethodScenario(g: Gate, clock: Clock)
    requires Admits(g, clock.reading.check)
    ensures var h := Handle(g, Request("GET", CreatePath, None), clock);
      && h.outcome == Responded(405, ErrorPayload(ErrorMessage(clock.reply, 405, "Method Not Allowed",
                                                               "Method Not Allowed: GET", CreatePath)))
      && h.gate.last == clock.reading.stamp
  {
    var req := Request("GET", CreatePath, None);
    assert RouteOf(req.verb, req.path) == BadMethod;
    assert "Method Not Allowed: " + "GET" == "Method Not Allowed: GET";
    assert Respond(req, clock.reply) == Responded(405, ErrorPayload(ErrorBody(BadMethod, req.verb, req.path, clock.reply)));
  }
}

=== FILE: rate_gate.dfy ===
/** The admission gate of `CrptApi`: a spacing interval fixed at construction and the
    timestamp of the last admitted request. Time is integer nanoseconds read from a clock
    that is passed in; the `synchronized` handler makes successive calls sequential. */
module RateGate {
  import opened Wrappers
  import opened TimeUnits

  /** The `ArithmeticException` ("/ by zero") a zero request limit raises in the constructor. */
  datatype ConfigError = DivisionByZero

  /** `unit` and `limit` are kept for the denial log; `rate` is `timeRate`; `last` is `lastRequestTime`. */
  datatype Gate = Gate(unit: TimeUnit, limit: int, rate: int, last: int)

  datatype Decision = Admitted | Denied

  /** The two clock readings of one call: `check` is compared against `last`, `stamp` is
      stored on admission. They come from two separate reads of the wall clock. */
  datatype Reading = Reading(check: int, stamp: int)

  /** The readings of one call are taken in order: the second is not before the first. */
  predicate InOrder(r: Reading) {
    r.check <= r.stamp
  }

  function Abs(x: int): nat {
    if x < 0 then -x else x
  }

  /** Java's `long / int`: the quotient truncated toward zero, so its magnitude is the largest
      whose multiple of |b| does not exceed |a|, and its sign is the sign of `a * b`. */
  function JavaDiv(a: int, b: int): (q: int)
    requires b != 0
    ensures Abs(b) * Abs(q) <= Abs(a) < Abs(b) * (Abs(q) + 1)
    ensures q != 0 ==> (q > 0 <==> (a < 0) == (b < 0))
  {
    var m := Abs(a) / Abs(b);
    DivBounds(Abs(a), Abs(b));
    if (a < 0) == (b < 0) then m else -m
  }

  lemma DivBounds(a: nat, b: nat)
    requires b > 0
    ensures b * (a / b) <= a < b * (a / b + 1)
  {
    assert a == b * (a / b) + a % b;
  }

  /** `calculateTimeRate`: nanoseconds in one unit divided by the limit. A zero limit throws. */
  function TimeRate(unit: TimeUnit, limit: int): (r: Result<int, ConfigError>)
    ensures r.Failure? <==> limit == 0
    ensures r.Success? ==> Abs(limit) * Abs(r.value) <= NanosPer(unit) < Abs(limit) * (Abs(r.value) + 1)
    ensures r.Success? && r.value != 0 ==> (r.value > 0 <==> limit > 0)
  {
    if limit == 0 then Failure(DivisionByZero) else Success(JavaDiv(NanosPer(unit), limit))
  }

  /** The constructor: `lastRequestTime` is the clock reading `now` taken when the object is built. */
  function Create(unit: TimeUnit, limit: int, now: int): (r: Result<Gate, ConfigError>)
    ensures r.Failure? <==> limit == 0
    ensures r.Success? ==> r.value.last == now && r.value.unit == unit && r.value.limit == limit
    ensures r.Success? ==> TimeRate(unit, limit) == Success(r.value.rate)
  {
    match TimeRate(unit, limit)
    case Failure(e) => Failure(e)
    case Success(rate) => Success(Gate(unit, limit, rate, now))
  }

  /** The admission test: strictly more than `rate` nanoseconds since the last admission. */
  predicate Admits(g: Gate, now: int) {
    g.rate < now - g.last
  }

  datatype StepResult = StepResult(decision: Decision, gate: Gate)

  /** One call of the handler as far as the gate is concerned. */
  function Step(g: Gate, r: Reading): (s: StepResult)
    ensures s.decision == Admitted <==> g.rate < r.check - g.last
    ensures s.gate.unit == g.unit && s.gate.limit == g.limit && s.gate.rate == g.rate
    ensures s.decision == Admitted ==> s.gate.last == r.stamp
    ensures s.decision == Denied ==> s.gate == g
    ensures g.rate >= 0 && r.check <= g.last ==> s.decision == Denied
  {
    if Admits(g, r.check) then StepResult(Admitted, g.(last := r.stamp)) else StepResult(Denied, g)
  }

  /** The decisions of a run of calls, the final gate and the stamps stored by admissions. */
  datatype Trace = Trace(final: Gate, decisions: seq<Decision>, stamps: seq<int>)

  function Run(g: Gate, rs: seq<Reading>): (t: Trace)
    ensures |t.decisions| == |rs| && |t.stamps| <= |rs|
    ensures t.final.unit == g.unit && t.final.limit == g.limit && t.final.rate == g.rate
    ensures t.stamps == [] ==> t.final == g
    ensures t.stamps != [] ==> t.final.last == t.stamps[|t.stamps| - 1]
    decreases |rs|
  {
    if rs == [] then Trace(g, [], [])
    else
      var s := Step(g, rs[0]);
      var rest := Run(s.gate, rs[1..]);
      Trace(rest.final, [s.decision] + rest.decisions,
            if s.decision == Admitted then [rs[0].stamp] + rest.stamps else rest.stamps)
  }

  /** Consecutive entries of `s` lie strictly more than `rate` apart. */
  predicate Spaced(s: seq<int>, rate: int) {
    forall i :: 0 <= i < |s| - 1 ==> s[i] + rate < s[i + 1]
  }

  function Count(ds: seq<Decision>, d: Decision): nat {
    if ds == [] then 0 else (if ds[0] == d then 1 else 0) + Count(ds[1..], d)
  }

  /** A run never changes the configuration, has one decision per call, records one stamp per
      admission and leaves `last` at the latest stamp (the construction time if none). */
  lemma {:induction false} RunShape(g: Gate, rs: seq<Reading>)
    ensures var t := Run(g, rs);
      && |t.decisions| == |rs|
      && |t.stamps| == Count(t.decisions, Admitted)
      && t.final == g.(last := ([g.last] + t.stamps)[|t.stamps|])
    decreases |rs|
  {
    if rs != [] {
      var s := Step(g, rs[0]);
      RunShape(s.gate, rs[1..]);
      var t, rest := Run(g, rs), Run(s.gate, rs[1..]);
      assert t.decisions[1..] == rest.decisions;
    }
  }

  /** Each recorded stamp is the second clock reading of a call that was admitted. */
  lemma {:induction false} RunStampsAdmitted(g: Gate, rs: seq<Reading>, j: nat)
    requires j < |Run(g, rs).stamps|
    ensures exists i ::
      0 <= i < |rs| && Run(g, rs).decisions[i] == Admitted && Run(g, rs).stamps[j] == rs[i].stamp
    decreases |rs|
  {
    var s := Step(g, rs[0]);
    var t, rest := Run(g, rs), Run(s.gate, rs[1..]);
    if s.decision == Admitted && j == 0 {
      assert t.decisions[0] == Admitted && t.stamps[0] == rs[0].stamp;
    } else {
      var j' := if s.decision == Admitted then j - 1 else j;
      assert t.stamps[j] == rest.stamps[j'];
      RunStampsAdmitted(s.gate, rs[1..], j');
      var i :| 0 <= i < |rs| - 1 && rest.decisions[i] == Admitted && rest.stamps[j'] == rs[1..][i].stamp;
      assert t.decisions[i + 1] == rest.decisions[i];
      assert t.decisions[i + 1] == Admitted && t.stamps[j] == rs[i + 1].stamp;
    }
  }

  /** Conversely, the stamp of every admitted call is recorded. */
  lemma {:induction false} AdmittedRecorded(g: Gate, rs: seq<Reading>, i: nat)
    requires i < |rs| && Run(g, rs).decisions[i] == Admitted
    ensures rs[i].stamp in Run(g, rs).stamps
    decreases |rs|
  {
    var s := Step(g, rs[0]);
    var rest := Run(s.gate, rs[1..]);
    if i > 0 {
      assert rest.decisions[i - 1] == Admitted && rs[1..][i - 1] == rs[i];
      AdmittedRecorded(s.gate, rs[1..], i - 1);
    }
  }

  /** The spacing invariant: whatever the clock does between calls, as long as each call reads
      its two values in order, every admitted stamp lies strictly more than `rate` after the
      previous one, and the first after the construction time. */
  lemma {:induction false} RunSpaced(g: Gate, rs: seq<Reading>)
    requires forall i :: 0 <= i < |rs| ==> InOrder(rs[i])
    ensures Spaced([g.last] + Run(g, rs).stamps, g.rate)
    decreases |rs|
  {
    if rs != [] {
      var s := Step(g, rs[0]);
      RunSpaced(s.gate, rs[1..]);
      var rest := Run(s.gate, rs[1..]);
      if s.decision == Admitted {
        assert [g.last] + Run(g, rs).stamps == [g.last] + ([s.gate.last] + rest.stamps);
      } else {
        assert s.gate == g;
      }
    }
  }

  /** `n + 1` spaced timestamps span at least `n * (rate + 1)`. */
  lemma {:induction false} SpacedSpan(s: seq<int>, rate: int)
    requires |s| >= 1 && Spaced(s, rate)
    ensures s[|s| - 1] - s[0] >= (|s| - 1) * (rate + 1)
    decreases |s|
  {
    if |s| > 1 {
      SpacedSpan(s[..|s| - 1], rate);
    }
  }

  /** The throughput bound: the k-th admission after construction is stamped at least
      `k * (rate + 1)` nanoseconds after the construction time; with a non-negative interval a
      span of `d` nanoseconds therefore holds at most `d / (rate + 1)` admissions. */
  lemma AdmissionBound(g: Gate, rs: seq<Reading>)
    requires forall i :: 0 <= i < |rs| ==> InOrder(rs[i])
    ensures var k := |Run(g, rs).stamps|;
      k > 0 ==> Run(g, rs).stamps[k - 1] - g.last >= k * (g.rate + 1)
  {
    RunSpaced(g, rs);
    var s := [g.last] + Run(g, rs).stamps;
    SpacedSpan(s, g.rate);
  }

  /** Simultaneous arrivals: calls that all read the same instant admit at most one request,
      and exactly one when the first of them is admitted. */
  lemma {:induction false} SimultaneousAtMostOne(g: Gate, rs: seq<Reading>, t: int)
    requires g.rate >= 0
    requires forall i :: 0 <= i < |rs| ==> rs[i] == Reading(t, t)
    ensures |Run(g, rs).stamps| <= 1
    ensures rs != [] ==> (|Run(g, rs).stamps| == 1 <==> Admits(g, t))
    decreases |rs|
  {
    if rs != [] {
      var s := Step(g, rs[0]);
      if s.decision == Admitted {
        AllDeniedAfter(s.gate, rs[1..], t);
      } else {
        SimultaneousAtMostOne(g, rs[1..], t);
      }
    }
  }

  /** With a non-negative interval, once `last` is at or after the instant every call reads,
      no call is admitted. */
  lemma {:induction false} AllDeniedAfter(g: Gate, rs: seq<Reading>, t: int)
    requires g.rate >= 0 && t <= g.last
    requires forall i :: 0 <= i < |rs| ==> rs[i] == Reading(t, t)
    ensures Run(g, rs).stamps == []
    ensures Run(g, rs).final == g
    decreases |rs|
  {
    if rs != [] {
      AllDeniedAfter(g, rs[1..], t);
    }
  }

  /** A denied call can be retried: a later reading more than `rate` after `last` is admitted,
      and a denial changes nothing, so repeated denials keep measuring from the same `last`. */
  lemma {:induction false} DeniedRunKeepsGate(g: Gate, rs: seq<Reading>)
    requires forall i :: 0 <= i < |rs| ==> !Admits(g, rs[i].check)
    ensures Run(g, rs).final == g && Run(g, rs).stamps == []
    ensures forall i :: 0 <= i < |rs| ==> Run(g, rs).decisions[i] == Denied
    ensures forall r: Reading :: Admits(g, r.check) ==> Step(Run(g, rs).final, r).decision == Admitted
    decreases |rs|
  {
    if rs != [] {
      DeniedRunKeepsGate(g, rs[1..]);
      RunShape(g, rs);
    }
  }

  /** A positive limit gives a non-negative interval, so a clock that stands still or runs
      backward never admits. */
  lemma PositiveLimitRate(unit: TimeUnit, limit: int, now: int)
    requires limit > 0
    ensures Create(unit, limit, now).Success?
    ensures var g := Create(unit, limit, now).value;
      g.rate >= 0 && g.rate * limit <= NanosPer(unit) < (g.rate + 1) * limit
  {
  }

  /** One request per second, gate built at time 0: a request at the construction instant,
      half a second later and exactly one second later are denied; one nanosecond past the
      second is admitted, and the interval restarts from there. */
  lemma OnePerSecondScenario()
    ensures var g := Create(Seconds, 1, 0).value;
      var t := Run(g, [Reading(0, 0), Reading(500_000_000, 500_000_000),
                       Reading(1_000_000_000, 1_000_000_000), Reading(1_000_000_001, 1_000_000_001),
                       Reading(1_500_000_000, 1_500_000_000)]);
      t.decisions == [Denied, Denied, Denied, Admitted, Denied] && t.stamps == [1_000_000_001]
  {
  }

  /** A negative limit constructs a gate whose interval is zero or negative: zero when the limit's
      magnitude exceeds the unit's nanoseconds, and then a same-instant reading is still denied;
      negative otherwise, and then two calls at the construction instant are both admitted. */
  lemma NegativeLimitScenario()
    ensures Create(Nanoseconds, -2, 0) == Success(Gate(Nanoseconds, -2, 0, 0))
    ensures Run(Create(Nanoseconds, -2, 0).value, [Reading(0, 0)]).decisions == [Denied]
    ensures Create(Days, -1, 0).value.rate == -86_400_000_000_000
    ensures Run(Create(Days, -1, 0).value, [Reading(0, 0), Reading(0, 0)]).decisions == [Admitted, Admitted]
  {
  }
}

=== FILE: router.dfy ===
/** The method and path dispatch of the request handler, and the error bodies it sends. */
module Router {

  /** The one path the service accepts (`CreatePathMatches`). */
  const CreatePath: string := "/api/v3/lk/documents/create"

  /** The pattern the path is matched against: the create path behind a `^` anchor. */
  const CreatePattern: string := "^" + CreatePath

  /** The characters with a meaning of their own in a `java.util.regex` pattern. */
  predicate IsMeta(c: char) {
    c in {'\\', '^', '$', '.', '|', '?', '*', '+', '(', ')', '[', ']', '{', '}'}
  }

  /** A pattern built from `^` anchors and characters that stand for themselves. */
  predicate AnchoredLiteral(p: string) {
    forall i :: 0 <= i < |p| ==> p[i] == '^' || !IsMeta(p[i])
  }

  /** The create path holds no metacharacter. */
  lemma CreatePathIsLiteral()
    ensures forall i :: 0 <= i < |CreatePath| ==> !IsMeta(CreatePath[i])
  {
    forall i | 0 <= i < |CreatePath|
      ensures !IsMeta(CreatePath[i])
    {
      var c := CreatePath[i];
      assert c == '/' || 'a' <= c <= 'z' || c == '3';
    }
  }

  /** Matching `p` against `s` from position `pos`: `^` matches only at the start of the
      input, any other character matches itself, and `Pattern.matches` accepts only when the
      match ends at the end of the input. */
  predicate MatchFrom(p: string, s: string, pos: nat)
    requires pos <= |s|
    ensures MatchFrom(p, s, pos) ==> |s| - pos <= |p|
    ensures MatchFrom(p, s, pos) && pos > 0 ==> '^' !in p
    decreases |p|
  {
    if p == [] then pos == |s|
    else if p[0] == '^' then pos == 0 && MatchFrom(p[1..], s, pos)
    else pos < |s| && s[pos] == p[0] && MatchFrom(p[1..], s, pos + 1)
  }

  /** `Pattern.matches(p, s)` for an anchored literal pattern. */
  predicate Matches(p: string, s: string)
    requires AnchoredLiteral(p)
    ensures '^' !in p ==> (Matches(p, s) <==> s == p)
    ensures |p| > 0 && p[0] == '^' && '^' !in p[1..] ==> (Matches(p, s) <==> s == p[1..])
  {
    if '^' !in p then
      LiteralMatchFrom(p, s, 0);
      MatchFrom(p, s, 0)
    else if |p| > 0 && p[0] == '^' && '^' !in p[1..] then
      LiteralMatchFrom(p[1..], s, 0);
      MatchFrom(p, s, 0)
    else
      MatchFrom(p, s, 0)
  }

  /** Without anchors, a literal pattern matches from `pos` exactly when it is the rest of the input. */
  lemma {:induction false} LiteralMatchFrom(p: string, s: string, pos: nat)
    requires pos <= |s|
    requires forall i :: 0 <= i < |p| ==> p[i] != '^'
    ensures MatchFrom(p, s, pos) <==> s[pos..] == p
    decreases |p|
  {
    if p != [] {
      if pos < |s| {
        LiteralMatchFrom(p[1..], s, pos + 1);
        assert s[pos..] == [s[pos]] + s[pos + 1..];
      }
    }
  }

  /** The route test is a whole-string comparison: a path matches the create pattern exactly
      when it equals the create path, so neither a prefix nor an extension of it matches. */
  lemma CreatePathMatches(path: string)
    ensures AnchoredLiteral(CreatePattern)
    ensures Matches(CreatePattern, path) <==> path == CreatePath
  {
    CreatePathIsLiteral();
  }

  datatype Route = CreateDocument | BadPath | BadMethod

  /** The `switch` on the method and the `Pattern.matches` test on the path. */
  function RouteOf(verb: string, path: string): (r: Route)
    ensures r == CreateDocument <==> verb == "POST" && path == CreatePath
  {
    CreatePathMatches(path);
    if verb != "POST" then BadMethod
    else if Matches(CreatePattern, path) then CreateDocument
    else BadPath
  }

  /** The HTTP status each route answers with. */
  function Status(r: Route): (code: int)
    ensures code == 200 <==> r == CreateDocument
    ensures code in {200, 400, 405}
    ensures code == 400 <==> r == BadPath
  {
    match r
    case CreateDocument => 200
    case BadPath => 400
    case BadMethod => 405
  }

  /** `ErrorMessage`; `timestamp` is the clock reading taken when the body is built. */
  datatype ErrorMessage = ErrorMessage(timestamp: int, status: int, error: string, message: string, path: string)

  /** The error body for a rejected route; the create route has none. */
  function ErrorBody(r: Route, verb: string, path: string, now: int): (e: ErrorMessage)
    requires r != CreateDocument
    ensures e.status == Status(r) && e.status != 200 && e.path == path && e.timestamp == now
    ensures r == BadPath ==> |path| <= |e.message| && e.message[|e.message| - |path|..] == path
    ensures r == BadMethod ==> |verb| <= |e.message| && e.message[|e.message| - |verb|..] == verb
  {
    match r
    case BadPath => ErrorMessage(now, 400, "Bad request", "Invalid path: " + path, path)
    case BadMethod => ErrorMessage(now, 405, "Method Not Allowed", "Method Not Allowed: " + verb, path)
  }

  /** The dispatch is a total case split on (verb, path), each case with its status. */
  lemma RouteCases(verb: string, path: string)
    ensures RouteOf(verb, path) == CreateDocument <==> verb == "POST" && path == CreatePath
    ensures RouteOf(verb, path) == BadPath <==> verb == "POST" && path != CreatePath
    ensures RouteOf(verb, path) == BadMethod <==> verb != "POST"
    ensures Status(RouteOf(verb, path)) == 200 <==> RouteOf(verb, path) == CreateDocument
    ensures Status(RouteOf(verb, path)) in {200, 400, 405}
  {
  }

  /** The match is on the whole path: a proper prefix or an extension of the create path is a
      bad path, not the create route. */
  lemma NoPartialMatch(path: string, suffix: string)
    requires |suffix| > 0
    ensures RouteOf("POST", CreatePath + suffix) == BadPath
    ensures path < CreatePath ==> RouteOf("POST", path) == BadPath
  {
    assert |CreatePath + suffix| > |CreatePath|;
  }

  /** The error body carries the route's own status, names the offending path or verb in its
      message, and echoes the path. */
  lemma ErrorBodyContents(verb: string, path: string, now: int)
    requires RouteOf(verb, path) != CreateDocument
    ensures var r := RouteOf(verb, path);
      var e := ErrorBody(r, verb, path, now);
      && e.status == Status(r) && e.path == path && e.timestamp == now
      && (r == BadPath ==> e.error == "Bad request" && e.message == "Invalid path: " + path)
      && (r == BadMethod ==> e.error == "Method Not Allowed" && e.message == "Method Not Allowed: " + verb)
  {
  }
}

=== FILE: text.dfy ===
/** The two string conversions the denial log line uses:
    `Integer.toString` (string concatenation of an `int`) and
    `String.toLowerCase` under a default locale without special casing rules (not Turkish
    or Azerbaijani), where an ASCII capital maps to its ASCII small letter. */
module Text {

  predicate IsDigit(c: char) {
    '0' <= c <= '9'
  }

  predicate IsUpper(c: char) {
    'A' <= c <= 'Z'
  }

  predicate AllDigits(s: string) {
    forall i :: 0 <= i < |s| ==> IsDigit(s[i])
  }

  function DigitChar(d: int): (c: char)
    requires 0 <= d < 10
    ensures IsDigit(c)
  {
    (d + '0' as int) as char
  }

  function DigitValue(c: char): (d: int)
    requires IsDigit(c)
    ensures 0 <= d < 10
  {
    c as int - '0' as int
  }

  /** Decimal digits of `n`, most significant first, without leading zeros. */
  function NatToString(n: nat): (s: string)
    ensures |s| >= 1 && AllDigits(s)
    ensures s[0] == '0' ==> n == 0
    decreases n
  {
    if n < 10 then [DigitChar(n)] else NatToString(n / 10) + [DigitChar(n % 10)]
  }

  /** The value of a string of decimal digits. */
  function DigitsValue(s: string): nat
    requires AllDigits(s)
    decreases |s|
  {
    if s == [] then 0 else DigitsValue(s[..|s| - 1]) * 10 + DigitValue(s[|s| - 1])
  }

  /** Java's `Integer.toString(i)`: an optional minus sign, then the digits of |i|. */
  function IntToString(i: int): (s: string)
    ensures |s| >= 1
    ensures s[0] == '-' <==> i < 0
    ensures s[0] == '-' ==> |s| >= 2 && AllDigits(s[1..])
    ensures s[0] != '-' ==> AllDigits(s)
  {
    if i < 0 then "-" + NatToString(-i) else NatToString(i)
  }

  /** Reads back an optionally signed decimal numeral. */
  function ParseInt(s: string): int
    requires |s| >= 1
    requires s[0] == '-' ==> AllDigits(s[1..])
    requires s[0] != '-' ==> AllDigits(s)
  {
    if s[0] == '-' then -(DigitsValue(s[1..]) as int) else DigitsValue(s)
  }

  lemma {:induction false} NatToStringRoundTrip(n: nat)
    ensures DigitsValue(NatToString(n)) == n
    decreases n
  {
    var s := NatToString(n);
    if n >= 10 {
      NatToStringRoundTrip(n / 10);
      assert s[..|s| - 1] == NatToString(n / 10);
    }
  }

  /** The numeral printed for an `int` reads back as that `int`. */
  lemma IntToStringRoundTrip(i: int)
    ensures ParseInt(IntToString(i)) == i
  {
    if i < 0 {
      assert IntToString(i)[1..] == NatToString(-i);
      NatToStringRoundTrip(-i);
    } else {
      NatToStringRoundTrip(i);
    }
  }

  /** Two different `int`s never print the same numeral. */
  lemma IntToStringInjective(i: int, j: int)
    ensures IntToString(i) == IntToString(j) <==> i == j
  {
    IntToStringRoundTrip(i);
    IntToStringRoundTrip(j);
  }

  function LowerChar(c: char): (r: char)
  {
    if IsUpper(c) then (c as int - 'A' as int + 'a' as int) as char else c
  }

  /** `String.toLowerCase` on text whose only letters are ASCII. */
  function Lower(s: string): (r: string)
    ensures |r| == |s|
    ensures forall i :: 0 <= i < |r| ==> !IsUpper(r[i])
    ensures forall i :: 0 <= i < |s| && !IsUpper(s[i]) ==> r[i] == s[i]
    ensures forall i :: 0 <= i < |s| && IsUpper(s[i]) ==> r[i] as int == s[i] as int + 32
  {
    seq(|s|, i requires 0 <= i < |s| => LowerChar(s[i]))
  }

  /** On upper-case text lowering loses nothing: distinct inputs stay distinct. */
  lemma LowerInjectiveOnUpper(a: string, b: string)
    requires forall i :: 0 <= i < |a| ==> IsUpper(a[i])
    requires forall i :: 0 <= i < |b| ==> IsUpper(b[i])
    requires Lower(a) == Lower(b)
    ensures a == b
  {
    assert |a| == |b|;
    forall i | 0 <= i < |a|
      ensures a[i] == b[i]
    {
      assert Lower(a)[i] == Lower(b)[i];
    }
  }
}

=== FILE: time_units.dfy ===
/** `java.util.concurrent.TimeUnit`: the seven units, their names and their length in nanoseconds. */
module TimeUnits {
  import Text

  datatype TimeUnit = Nanoseconds | Microseconds | Milliseconds | Seconds | Minutes | Hours | Days

  const MaxLong: int := 0x7FFF_FFFF_FFFF_FFFF

  /** `TimeUnit.NANOSECONDS.convert(1, u)`. Every value fits in a `long`, so the
      saturation `convert` applies on overflow never happens. */
  function NanosPer(u: TimeUnit): (n: int)
    ensures 1 <= n <= MaxLong
  {
    match u
    case Nanoseconds => 1
    case Microseconds => 1_000
    case Milliseconds => 1_000_000
    case Seconds => 1_000_000_000
    case Minutes => 60_000_000_000
    case Hours => 3_600_000_000_000
    case Days => 86_400_000_000_000
  }

  /** The enum constant's name, which is what `toString()` returns. */
  function Name(u: TimeUnit): (s: string)
    ensures forall i :: 0 <= i < |s| ==> Text.IsUpper(s[i])
  {
    match u
    case Nanoseconds => "NANOSECONDS"
    case Microseconds => "MICROSECONDS"
    case Milliseconds => "MILLISECONDS"
    case Seconds => "SECONDS"
    case Minutes => "MINUTES"
    case Hours => "HOURS"
    case Days => "DAYS"
  }

  /** `u.toString().toLowerCase()`, as printed in the denial log. */
  function LowerName(u: TimeUnit): (s: string)
    ensures |s| == |Name(u)|
    ensures forall i :: 0 <= i < |s| ==> !Text.IsUpper(s[i])
  {
    Text.Lower(Name(u))
  }

  /** Different units print different lower-case names, so the log line identifies the unit. */
  lemma LowerNameInjective(u: TimeUnit, v: TimeUnit)
    ensures LowerName(u) == LowerName(v) <==> u == v
  {
    if LowerName(u) == LowerName(v) {
      Text.LowerInjectiveOnUpper(Name(u), Name(v));
      NameInjective(u, v);
    }
  }

  lemma NameInjective(u: TimeUnit, v: TimeUnit)
    requires Name(u) == Name(v)
    ensures u == v
  {
  }
}

=== FILE: wrappers.dfy ===
/** Option and Result datatypes, standing for the Java exceptions and nulls of the model. */
module Wrappers {

  /** A value that may be absent: a Java `null` or a call that threw. */
  datatype Option<+T> = None | Some(value: T)

  /** Either a value or the error that prevented computing it. */
  datatype Result<+R, +E> = Success(value: R) | Failure(error: E)
}
